=== FILE: README.md ===
# Session protocol of a JWT login backend, in Dafny

This project models the server side of a small Express authentication backend.
The backend issues a short-lived access token and a long-lived refresh token at
login. It keeps the refresh tokens it has issued in a process-wide list, the
*refresh registry*. It rotates a refresh token on renewal and revokes one on
logout. Protected routes pass through a guard that checks the access token in
the `token` header, and a second guard adds a self-or-admin check.

Modules, following the source:

- `Tokens`: the sign requests behind `genetateAccessToken` and `genetateRefreshToken`.
  Each carries the claims `{id, admin}`, the key class, the lifetime and the issue second.
  The module also holds a reference model of `jwt.verify`. It checks the signature first and then expiry (`now >= exp`). The signature check compares the values of the two secrets, `Secrets(access, refresh)`, so the model covers the case where both environment variables hold the same value.
  Signing is an oracle `Signer = Jwt -> Token`. Verification is an oracle `Verifier = (Token, KeyClass) -> Verdict`.
- `RefreshRegistry`: the registry as `seq<Token>`. `push` is `+ [t]` and keeps duplicates.
  `filter(token => token !== t)` is `Without`, which removes every copy.
- `HeaderSplit`: JavaScript's `split(" ")` with a one-character separator, and `[1]` of its result.
- `AuthController`: `loginUser`, `requestRefreshToken` and `userLogout`.
  Each is a pure function from the registry, the request and the oracle answers to a `Step`.
  A `Step` holds the new registry and the reply: status, body and cookie effect, or no reply at all.
- `MiddlewareController`: `verifyToken` and `verifyTokenAndAdminAuth`.
  Each returns `Unauthenticated`, `Forbidden(reason)` or `Next(payload)`.
  `Next` carries the payload stored in `req.user`; the single `Next` value stands for the one call to `next()`.
- `Session`: the guarded logout route and a registry invariant kept by every handler.
  It also proves the login, refresh and reuse sequences a browser goes through.

The foreign calls are inputs. User lookup and password comparison are passed as their outcomes,
including their failure cases. The clock is the `now` parameter, in whole seconds.
Signing and verification are the function parameters above.
Minted tokens are not assumed to be distinct: `sign` is a function, so equal claims signed in the same second give equal strings.

Facts about the code that the model keeps:

- The registry is a list that keeps duplicates; one logout or rotation removes every copy of a token.
- The guard splits the header on one space character. Two spaces in a row give an empty token, which is passed to the verifier.
- Nothing checks that JWT_ACCESS_KEY and JWT_REFRESH_KEY differ, and the guard never looks at which kind of token it holds. When the two secrets are equal, a refresh token is accepted as an access token for its whole year (`Session.RefreshTokenAsBearer`).
- A registered refresh token that fails verification is still filtered out of the registry, and the handler then throws while minting from the undefined payload, so no reply is sent (see Findings).
- A refresh in the same second as the login mints the same access and refresh strings again (`Session.SameSecondRefreshReissuesSameTokens`). From a later second on, the new tokens differ (`Session.LoginThenRefresh`).

## Model

| member | source | states |
|---|---|---|
| Tokens.GenerateAccessToken | backend/controllers/authController.js:30-39 | the access request carries exactly the user's claims and is signed with the access secret. It verifies with that secret until 30 s after issue and is expired from then on. Checked with the refresh secret, it fails its signature when the two secrets differ and verifies exactly as with the access secret when they are equal |
| Tokens.GenerateRefreshToken | backend/controllers/authController.js:42-51 | the refresh request carries exactly the user's claims and verifies with the refresh secret for 365 days (31536000 s) after issue. Checked with the access secret, it fails its signature when the two secrets differ and verifies exactly as with the refresh secret when they are equal |
| RefreshRegistry.Without | backend/controllers/authController.js:119-121 | filtering removes every copy of the token, and exactly the other registered tokens survive |
| RefreshRegistry.WithoutMultiset | backend/controllers/authController.js:119-121 | filtering drops every copy of the token and keeps every other token's multiplicity |
| RefreshRegistry.WithoutAppend | backend/controllers/authController.js:101 | filtering distributes over concatenation, so the surviving tokens keep their relative order |
| RefreshRegistry.WithoutAbsent | backend/controllers/authController.js:119-121 | filtering out a token that is not registered leaves the registry unchanged |
| RefreshRegistry.WithoutIdempotent | backend/controllers/authController.js:119-121 | filtering the same token twice gives the same registry as filtering it once |
| RefreshRegistry.WithoutCommutes | backend/controllers/authController.js:119-121 | revoking two tokens gives the same registry in either order |
| HeaderSplit.Split | backend/controllers/middlewareController.js:9 | the header splits into one more segment than it has spaces; no segment holds a space, and joining the segments with spaces gives back the header |
| HeaderSplit.SplitJoin | backend/controllers/middlewareController.js:9 | splitting parts that were joined with spaces gives back exactly those parts, provided none of them holds a space |
| HeaderSplit.SecondSegment | backend/controllers/middlewareController.js:9 | index 1 of the split is undefined exactly when the header has no space, and never holds a space |
| HeaderSplit.SecondSegmentBetweenSeparators | backend/controllers/middlewareController.js:9 | index 1 of the split is exactly the text between the first and second space, or up to the end when there is no second space |
| AuthController.PublicFields | backend/controllers/authController.js:79-80 | the login body has every document field except `password`, plus `accessToken` holding the new access token; an `accessToken` field already in the document is overwritten |
| AuthController.LoginUser | backend/controllers/authController.js:54-85 | the reply is 200 iff the user exists and the password matches. An unknown user or a wrong password gives a 404 with its message; a store or bcrypt fault gives a 500; none of these touch the registry or the cookie. On success exactly one token is appended: the refresh token set in the cookie. Prior entries keep their order, and the body is the public fields plus the access token |
| AuthController.Rotate | backend/controllers/authController.js:101-112 | after rotation the registry is the old one with every copy of the stale token removed, followed by one new refresh token minted from the verified claims. That token is the cookie, and the body holds only the new access token |
| AuthController.RequestRefreshToken | backend/controllers/authController.js:88-114 | a missing or empty cookie gives a 401 and an unregistered cookie a 403, both leaving the registry unchanged. The reply is 200 iff the cookie is registered and verifies with the refresh key, and then the step is the rotation with an access-token-only body. A registered cookie that fails verification leaves the registry with every copy of it filtered out and no reply |
| AuthController.RequestRefreshTokenChecked | backend/controllers/authController.js:88-114 | corrected refresh: every path replies and any non-200 leaves the registry unchanged. No cookie gives the 401; an unregistered cookie or one that fails verification gives the 403 "Refresh token is not valid". The reply is 200 iff the cookie is registered and verifies, and then the step is the rotation with an access-token-only body |
| AuthController.UserLogout | backend/controllers/authController.js:117-123 | logout always replies 200 and clears the cookie. It removes every copy of the cookie's token and leaves every other token's multiplicity alone. Without a cookie, or with an unregistered one, the registry is unchanged |
| AuthController.LogoutIdempotent | backend/controllers/authController.js:119-121 | logging out twice with one cookie gives the same registry and reply as logging out once |
| AuthController.LogoutKeepsOrder | backend/controllers/authController.js:119-121 | logout keeps the untouched tokens in their original order |
| AuthController.VerifyErrorStillRevokes | backend/controllers/authController.js:97-103 | with registry `["t"]`, cookie `t` and a verifier that reports expiry, the handler as written empties the registry and sends nothing; the corrected one answers 403 and keeps `["t"]` |
| AuthController.CheckedAgreesUnlessRejected | backend/controllers/authController.js:97-112 | the handler as written and the corrected one give the same step iff the verifier does not reject a registered cookie |
| MiddlewareController.VerifyToken | backend/controllers/middlewareController.js:5-20 | a missing or empty header gives 401. A header without a space, or whose second segment the verifier rejects with the access key, gives 403. Otherwise `next` is reached exactly when that segment verifies, carrying the verified payload as the user |
| MiddlewareController.VerifyTokenAndAdminAuth | backend/controllers/middlewareController.js:23-31 | authentication failures pass through unchanged. An authenticated caller proceeds, with the same payload, iff its id equals the target id or it is an admin; otherwise 403 |
| MiddlewareController.BearerHeaderVerifiesToken | backend/controllers/middlewareController.js:9-15 | a header `<scheme> <token>` with no other spaces is judged exactly as the token verifies; the scheme word is never checked |
| MiddlewareController.TrailingSegmentsIgnored | backend/controllers/middlewareController.js:9 | anything after a second space is ignored |
| MiddlewareController.DoubleSpaceYieldsEmptyToken | backend/controllers/middlewareController.js:9-13 | two spaces after the scheme make the token the empty string. A verifier that accepts only signed tokens rejects it, so the header gets a 403 |
| MiddlewareController.RoleCheckOnlyAfterAuthentication | backend/controllers/middlewareController.js:23-24 | when authentication fails, the target id plays no part and the status is the one `verifyToken` gives |
| MiddlewareController.SelfOrAdminExamples | backend/controllers/middlewareController.js:25-29 | a non-admin `u1` may act on `u1` but not `u2`; an admin may act on any id |
| Session.Refusal | backend/controllers/middlewareController.js:10-29 | a refused request is answered with the status of its refusal and no cookie change. A missing header gets "You're not authenticated" and a rejected token "Token is not valid"; the self-or-admin refusal, and only it, carries "You're not allowed to delete other" |
| Session.LogoutRoute | backend/routes/auth.js:16 | logout runs only behind the access-token guard: a refused request leaves the registry unchanged with the guard's status, and the registry changes only when the caller authenticated and presented a registered cookie |
| Session.LoginKeepsRefreshOnly | backend/controllers/authController.js:69-72 | login keeps the invariant that every registry entry was minted by the signer from a refresh-key request |
| Session.RefreshKeepsRefreshOnly | backend/controllers/authController.js:101-105 | refresh, as written and corrected, keeps that invariant |
| Session.LogoutKeepsRefreshOnly | backend/controllers/authController.js:117-123 | the guarded logout keeps that invariant |
| Session.RegisteredTokensOnlyExpire | backend/controllers/authController.js:94-99 | with an honest verifier, a registered token is never rejected for its signature, only for expiry, whatever the secrets' values |
| Session.StaleRefreshTokenRejected | backend/controllers/authController.js:94-105 | after a successful rotation that minted a different token, the old cookie is gone from the registry. Presenting it again gives a 403 and no change, and logging it out changes nothing. So two renewals with one token, run one after the other, both succeed only when the first re-minted that same token, which happens only within the token's own issue second |
| Session.LoginThenRefresh | backend/controllers/authController.js:54-114 | login, then refresh with its cookie in a later second within a year, with an honest signer that never gives one string for requests differing in claims, secret value, lifetime or issue second. The refresh succeeds, and its access token differs from the login one and verifies to the user's claims. The new refresh token is registered, and the login cookie is refused if reused |
| Session.SameSecondRefreshReissuesSameTokens | backend/controllers/authController.js:101-105 | a refresh in the same second as the login mints the same access and refresh strings, so the login cookie stays registered after its own rotation |
| Session.SameSecondRenewalsBothSucceed | backend/controllers/authController.js:101-105 | two renewals with the login cookie in the login's own second both succeed, and each sets the same cookie again |
| Session.LoginAccessTokenAuthenticates | backend/controllers/middlewareController.js:9-15 | the login access token sent as `Bearer <token>` passes the guard with the user's claims for 30 s after login and gets a 403 from then on |
| Session.RefreshTokenAsBearer | backend/controllers/middlewareController.js:9-15 | the login refresh token sent as `Bearer <token>` gets a 403 when the two secrets differ. When they are equal it passes the guard with the user's claims for 365 days after login |

## Findings

| source | as written | input that shows it | evidently intended | confidence | as-written member | corrected member |
|---|---|---|---|---|---|---|
| backend/controllers/authController.js:97-103 | a verification error on the refresh token is only logged. The token is still filtered out of the registry, and minting from the undefined payload then throws, so the client gets no reply and loses its session | registry `["t"]`, cookie `t`, verifier reports the token expired: registry becomes `[]`, no reply | refuse with 403 and leave the registry as it was | high; not executed | AuthController.VerifyErrorStillRevokes (about AuthController.RequestRefreshToken) | AuthController.RequestRefreshTokenChecked |

`AuthController.CheckedAgreesUnlessRejected` shows the two handlers agree everywhere else. So the success-path lemmas in `Session`, stated for the handler as written, hold for the corrected one too. `Session.RefreshKeepsRefreshOnly` is stated for both.

## Left out

- `registerUser` (authController.js:9-27): password hashing and saving a new document; there is no registry or token logic in it.
- `userController.js`: database wrappers with no decision logic. Note that `deleteUser` only looks the user up and never deletes.
- `apiRequest.js`: client-side requests and state-store dispatches. Only the header format `Bearer <token>` it sends is used, in the lemmas about `verifyToken`.
- JWT cryptography and the wall clock: signing and verification are oracle parameters. `now` is a parameter in whole seconds. `VerifyJwt` is a reference for the honest-verifier lemmas, not a model of the library's internals. Its `HonestAt` predicate also requires that the verifier accept no string the signer did not produce, so empty, malformed and forged tokens are rejected. Which error the library reports for them (`jwt must be provided`, `jwt malformed`, `invalid signature`) is not distinguished; every path treats them alike.
- bcrypt and the user store are passed as outcomes (`Lookup`, `PasswordCheck`). Whether those outcomes are consistent with the request's username and password is not modelled.
- A `jwt.sign` failure, such as an unset secret, would surface as a 500 at login. Signing is modelled as total.
- The stored document is a flat `map<string, Json>`; nested values and the mongoose getters are not modelled. `User.id` and `User.admin` are given separately from the document.
- Cookie attributes (httpOnly, secure, path, sameSite), JSON serialisation of error objects (the body is just `Fault`), and `console.log`.
- Cookie and header values are strings or absent. A cookie parsed as JSON, or a header given as an array, is not modelled.
- AuthController.RequestRefreshToken: the exception after a failed verification is modelled only as "no reply". Whether the request hangs or the process exits on the unhandled rejection depends on the Node.js version and is not modelled.
- Concurrency: the part of each handler that reads and updates the registry runs synchronously on Node's single thread, so the registry transitions are sequential. Login awaits the user lookup and the password comparison first, and other requests may run during those awaits. Neither call reads the registry, so passing their outcomes in as inputs keeps the model sound. `Session.StaleRefreshTokenRejected` covers two renewals with one token run one after the other in a later second than the token's issue second. Within the issue second both succeed and hand back the same token (`Session.SameSecondRenewalsBothSucceed`).
- Unbounded registry growth is a property of the code, not a missing operation: nothing ever evicts an entry. The registry never forgets a token that is neither rotated nor logged out, even after the token has expired.

=== FILE: auth_controller.dfy ===
/**
  The session protocol of the auth controller: login, refresh and logout as
  pure transitions of the refresh-token registry.

  Each handler takes the registry before the request, the request's inputs,
  and the answers of the foreign calls it makes (user lookup, password
  comparison, the signer and the verifier, the clock), and returns the
  registry after the request together with the reply sent.
 */
module AuthController {
  import opened Wrappers
  import opened Tokens
  import opened RefreshRegistry

  /** A JSON value of a stored user document, as far as the reply copies it. */
  datatype Json = JStr(s: string) | JBool(b: bool) | JNum(n: int) | JNull

  /**
    A user record as the store returns it: the `id` virtual and the `admin`
    flag the tokens are built from, and the raw document (`_doc`) whose fields,
    `password` hash included, the login reply is built from.
   */
  datatype User = User(id: string, admin: bool, doc: map<string, Json>)

  /** Outcome of `User.findOne({ username })`. */
  datatype Lookup = Found(user: User) | NoSuchUser | LookupFailed

  /** Outcome of `bcrypt.compare(password, user.password)`. */
  datatype PasswordCheck = Match | Mismatch | CompareFailed

  /** A reply body: a JSON string message, a JSON object, or a serialised error. */
  datatype Body = Text(message: string) | Fields(fields: map<string, Json>) | Fault

  /** What the reply does to the `refreshToken` cookie. */
  datatype CookieEffect = Unchanged | SetRefreshCookie(token: Token) | ClearRefreshCookie

  /** The reply, or none at all when the handler throws before answering. */
  datatype Reply = Reply(status: nat, body: Body, cookie: CookieEffect) | NoReply

  /** A handler's effect: the registry afterwards and the reply. */
  datatype Step = Step(registry: Registry, reply: Reply)

  function ClaimsOf(u: User): Claims {
    Claims(u.id, u.admin)
  }

  /** A cookie JavaScript treats as present: defined and not the empty string. */
  predicate Truthy(cookie: Option<string>) {
    cookie.Some? && cookie.value != ""
  }

  /** `{ ...others, accessToken }` where `others` is the document without `password`. */
  function PublicFields(doc: map<string, Json>, accessToken: Token): (body: map<string, Json>)
    ensures "password" !in body
    ensures "accessToken" in body && body["accessToken"] == JStr(accessToken)
    ensures forall k :: k in body <==> k == "accessToken" || (k in doc && k != "password")
    ensures forall k :: k in doc && k != "password" && k != "accessToken" ==> body[k] == doc[k]
  {
    (doc - {"password"})["accessToken" := JStr(accessToken)]
  }

  /**
    Login. A store fault or a comparison fault is a 500; an unknown user and a
    wrong password are both a 404 and leave the registry alone. On success the
    new refresh token is pushed onto the registry and set as the cookie, and
    the body carries the public user fields and the new access token.
   */
  function LoginUser(reg: Registry, lookup: Lookup, check: PasswordCheck, now: int, sign: Signer): (s: Step)
    ensures s.reply.Reply?
    ensures s.reply.status == 200 <==> lookup.Found? && check.Match?
    ensures s.reply.status != 200 ==> s.registry == reg && s.reply.cookie == Unchanged
    ensures lookup.NoSuchUser? ==> s.reply.status == 404 && s.reply.body == Text("User not found")
    ensures lookup.Found? && check.Mismatch? ==> s.reply.status == 404 && s.reply.body == Text("Invalid password")
    ensures lookup.LookupFailed? || (lookup.Found? && check.CompareFailed?) ==> s.reply.status == 500
    ensures s.reply.status == 200 ==>
      && |s.registry| == |reg| + 1
      && s.registry[..|reg|] == reg
      && s.reply.cookie == SetRefreshCookie(s.registry[|reg|])
      && s.registry[|reg|] == sign(GenerateRefreshToken(ClaimsOf(lookup.user), now))
      && s.reply.body == Fields(PublicFields(lookup.user.doc, sign(GenerateAccessToken(ClaimsOf(lookup.user), now))))
  {
    match lookup
    case LookupFailed => Step(reg, Reply(500, Fault, Unchanged))
    case NoSuchUser => Step(reg, Reply(404, Text("User not found"), Unchanged))
    case Found(user) =>
      match check
      case CompareFailed => Step(reg, Reply(500, Fault, Unchanged))
      case Mismatch => Step(reg, Reply(404, Text("Invalid password"), Unchanged))
      case Match =>
        var accessToken := sign(GenerateAccessToken(ClaimsOf(user), now));
        var refreshToken := sign(GenerateRefreshToken(ClaimsOf(user), now));
        var reg' := reg + [refreshToken];
        assert reg'[..|reg|] == reg;
        Step(reg', Reply(200, Fields(PublicFields(user.doc, accessToken)), SetRefreshCookie(refreshToken)))
  }

  /**
    Rotation: filter every copy of the stale token out, mint a new pair from
    the verified payload's claims, push the new refresh token, and answer with
    the new access token alone.
   */
  function Rotate(reg: Registry, stale: Token, p: Payload, now: int, sign: Signer): (s: Step)
    ensures |s.registry| >= 1
    ensures s.registry[..|s.registry| - 1] == Without(reg, stale)
    ensures s.registry[|s.registry| - 1] == sign(GenerateRefreshToken(p.claims, now))
    ensures multiset(s.registry) == multiset(reg)[stale := 0] + multiset{s.registry[|s.registry| - 1]}
    ensures s.reply == Reply(200, Fields(map["accessToken" := JStr(sign(GenerateAccessToken(p.claims, now)))]),
                             SetRefreshCookie(s.registry[|s.registry| - 1]))
  {
    var newAccessToken := sign(GenerateAccessToken(p.claims, now));
    var newRefreshToken := sign(GenerateRefreshToken(p.claims, now));
    var reg' := Without(reg, stale) + [newRefreshToken];
    assert reg'[..|reg'| - 1] == Without(reg, stale);
    WithoutMultiset(reg, stale);
    Step(reg', Reply(200, Fields(map["accessToken" := JStr(newAccessToken)]), SetRefreshCookie(newRefreshToken)))
  }

  /**
    Refresh, as written. No cookie is a 401 and a cookie missing from the
    registry is a 403, both leaving the registry alone. Otherwise the token is
    checked with the refresh key; a verification error is only logged, the
    filter still runs, and minting from the undefined payload then throws, so
    no reply is sent. A valid token is rotated.
   */
  function RequestRefreshToken(reg: Registry, cookie: Option<string>, now: int, sign: Signer, verify: Verifier): (s: Step)
    ensures !Truthy(cookie) ==> s == Step(reg, Reply(401, Text("You're not authenticated"), Unchanged))
    ensures Truthy(cookie) && cookie.value !in reg ==>
              s == Step(reg, Reply(403, Text("Refresh token is not valid"), Unchanged))
    ensures s.reply.Reply? && s.reply.status == 200 <==>
              Truthy(cookie) && cookie.value in reg && verify(cookie.value, RefreshKey).Valid?
    ensures s.reply.NoReply? ==> s.registry == Without(reg, cookie.value) && cookie.value in reg
    ensures Truthy(cookie) && cookie.value in reg && verify(cookie.value, RefreshKey).Invalid? ==>
              s == Step(Without(reg, cookie.value), NoReply)
    ensures s.reply.Reply? && s.reply.status == 200 ==>
      && s.reply.body.Fields? && s.reply.body.fields.Keys == {"accessToken"}
      && s == Rotate(reg, cookie.value, verify(cookie.value, RefreshKey).payload, now, sign)
  {
    if !Truthy(cookie) then Step(reg, Reply(401, Text("You're not authenticated"), Unchanged))
    else
      var refreshToken := cookie.value;
      if refreshToken !in reg then Step(reg, Reply(403, Text("Refresh token is not valid"), Unchanged))
      else
        match verify(refreshToken, RefreshKey)
        case Invalid(_) => Step(Without(reg, refreshToken), NoReply)
        case Valid(p) => Rotate(reg, refreshToken, p, now, sign)
  }

  /**
    Refresh as it was evidently meant: a token that fails verification is
    refused with a 403 before anything is filtered or minted.
   */
  function RequestRefreshTokenChecked(reg: Registry, cookie: Option<string>, now: int, sign: Signer, verify: Verifier): (s: Step)
    ensures s.reply.Reply?
    ensures s.reply.status != 200 ==> s.registry == reg
    ensures !Truthy(cookie) ==> s == Step(reg, Reply(401, Text("You're not authenticated"), Unchanged))
    ensures Truthy(cookie) && (cookie.value !in reg || verify(cookie.value, RefreshKey).Invalid?) ==>
              s == Step(reg, Reply(403, Text("Refresh token is not valid"), Unchanged))
    ensures s.reply.status == 200 <==> Truthy(cookie) && cookie.value in reg && verify(cookie.value, RefreshKey).Valid?
    ensures s.reply.status == 200 ==>
      && s.reply.body.Fields? && s.reply.body.fields.Keys == {"accessToken"}
      && s == Rotate(reg, cookie.value, verify(cookie.value, RefreshKey).payload, now, sign)
  {
    if !Truthy(cookie) then Step(reg, Reply(401, Text("You're not authenticated"), Unchanged))
    else
      var refreshToken := cookie.value;
      if refreshToken !in reg then Step(reg, Reply(403, Text("Refresh token is not valid"), Unchanged))
      else
        match verify(refreshToken, RefreshKey)
        case Invalid(_) => Step(reg, Reply(403, Text("Refresh token is not valid"), Unchanged))
        case Valid(p) => Rotate(reg, refreshToken, p, now, sign)
  }

  /** Logout: clear the cookie, filter every copy of the cookie's token out, always 200. */
  function UserLogout(reg: Registry, cookie: Option<string>): (s: Step)
    ensures s.reply == Reply(200, Text("Logged out success"), ClearRefreshCookie)
    ensures cookie.None? || cookie.value !in reg ==> s.registry == reg
    ensures cookie.Some? ==>
      && cookie.value !in s.registry
      && multiset(s.registry) == multiset(reg)[cookie.value := 0]
    ensures forall x :: x in s.registry <==> x in reg && (cookie.None? || x != cookie.value)
  {
    if cookie.None? then Step(reg, Reply(200, Text("Logged out success"), ClearRefreshCookie))
    else
      var reg' := Without(reg, cookie.value);
      WithoutMultiset(reg, cookie.value);
      assert cookie.value !in reg ==> reg' == reg by {
        if cookie.value !in reg {
          WithoutAbsent(reg, cookie.value);
        }
      }
      Step(reg', Reply(200, Text("Logged out success"), ClearRefreshCookie))
  }

  /** Logging out twice with the same cookie leaves the registry as logging out once. */
  lemma LogoutIdempotent(reg: Registry, cookie: Option<string>)
    ensures UserLogout(UserLogout(reg, cookie).registry, cookie) == UserLogout(reg, cookie)
  {
  }

  /** Logout keeps the tokens it does not remove in their original order. */
  lemma LogoutKeepsOrder(a: Registry, b: Registry, t: Token)
    ensures UserLogout(a + b, Some(t)).registry == UserLogout(a, Some(t)).registry + UserLogout(b, Some(t)).registry
  {
    WithoutAppend(a, b, t);
  }

  /**
    The refresh handler as written revokes a registered token even when the
    verifier rejects it, and then sends nothing; the corrected handler answers
    403 and keeps the registry.
   */
  lemma VerifyErrorStillRevokes(now: int, sign: Signer)
    ensures var verify := (t: Token, k: KeyClass) => Invalid(TokenExpired);
      && RequestRefreshToken(["t"], Some("t"), now, sign, verify) == Step([], NoReply)
      && RequestRefreshTokenChecked(["t"], Some("t"), now, sign, verify)
           == Step(["t"], Reply(403, Text("Refresh token is not valid"), Unchanged))
  {
  }

  /** The two refresh handlers differ only where the verifier rejects a registered token. */
  lemma CheckedAgreesUnlessRejected(reg: Registry, cookie: Option<string>, now: int, sign: Signer, verify: Verifier)
    ensures (RequestRefreshToken(reg, cookie, now, sign, verify) == RequestRefreshTokenChecked(reg, cookie, now, sign, verify))
        <==> !(Truthy(cookie) && cookie.value in reg && verify(cookie.value, RefreshKey).Invalid?)
  {
  }
}

=== FILE: header_split.dfy ===
/**
  String splitting as JavaScript's `String.prototype.split` does it with a
  one-character separator: every occurrence of the separator cuts, so two
  adjacent separators give an empty segment, and the result is never empty.
 */
module HeaderSplit {
  import opened Wrappers

  /** Number of occurrences of `c` in `s`. */
  function Occurrences(s: string, c: char): nat
    decreases |s|
  {
    if |s| == 0 then 0 else (if s[0] == c then 1 else 0) + Occurrences(s[1..], c)
  }

  /** Glue the parts back together with `sep` between neighbours. */
  function Join(parts: seq<string>, sep: char): string
    requires |parts| >= 1
    decreases |parts|
  {
    if |parts| == 1 then parts[0] else parts[0] + [sep] + Join(parts[1..], sep)
  }

  /** `s.split(sep)`: one segment more than there are separators, none holding a separator. */
  function Split(s: string, sep: char): (parts: seq<string>)
    ensures |parts| == Occurrences(s, sep) + 1
    ensures forall i :: 0 <= i < |parts| ==> sep !in parts[i]
    ensures Join(parts, sep) == s
    decreases |s|
  {
    if |s| == 0 then [""]
    else if s[0] == sep then
      var rest := Split(s[1..], sep);
      assert s == [sep] + Join(rest, sep);
      [""] + rest
    else
      var rest := Split(s[1..], sep);
      var parts := [[s[0]] + rest[0]] + rest[1..];
      assert parts[1..] == rest[1..];
      assert s == [s[0]] + Join(rest, sep);
      parts
  }

  /** `s.split(sep)[1]`: the second segment, or undefined when there is no separator. */
  function SecondSegment(s: string, sep: char): (r: Option<string>)
    ensures r.None? <==> sep !in s
    ensures r.Some? ==> sep !in r.value
  {
    var parts := Split(s, sep);
    OccurrencesZero(s, sep);
    if |parts| > 1 then Some(parts[1]) else None
  }

  lemma {:induction false} OccurrencesZero(s: string, c: char)
    ensures Occurrences(s, c) == 0 <==> c !in s
    decreases |s|
  {
    if |s| > 0 {
      OccurrencesZero(s[1..], c);
      assert s == [s[0]] + s[1..];
    }
  }

  /** Splitting a separator-free prefix followed by a separator peels exactly that prefix off. */
  lemma {:induction false} SplitPrefix(p: string, sep: char, rest: string)
    requires sep !in p
    ensures Split(p + [sep] + rest, sep) == [p] + Split(rest, sep)
    decreases |p|
  {
    var s := p + [sep] + rest;
    if |p| == 0 {
      assert s == [sep] + rest;
      assert s[1..] == rest;
    } else {
      assert s[0] == p[0];
      assert s[1..] == p[1..] + [sep] + rest;
      SplitPrefix(p[1..], sep, rest);
      assert [p[0]] + p[1..] == p;
    }
  }

  /**
    The second segment is exactly the text between the first and the second
    separator, or up to the end when there is no second one.
   */
  lemma SecondSegmentBetweenSeparators(p: string, t: string, rest: string, sep: char)
    requires sep !in p && sep !in t
    ensures SecondSegment(p + [sep] + t, sep) == Some(t)
    ensures SecondSegment(p + [sep] + t + [sep] + rest, sep) == Some(t)
  {
    SplitPrefix(p, sep, t);
    SplitNoSeparator(t, sep);
    assert Split(p + [sep] + t, sep) == [p, t];
    var tail := t + [sep] + rest;
    assert p + [sep] + t + [sep] + rest == p + [sep] + tail;
    SplitPrefix(t, sep, rest);
    assert Split(tail, sep) == [t] + Split(rest, sep);
    SplitPrefix(p, sep, tail);
    assert Split(p + [sep] + tail, sep) == [p, t] + Split(rest, sep);
  }

  /** A separator-free string is a single segment. */
  lemma SplitNoSeparator(s: string, sep: char)
    requires sep !in s
    ensures Split(s, sep) == [s]
  {
  }

  /** Split undoes Join whenever no part holds the separator. */
  lemma {:induction false} SplitJoin(parts: seq<string>, sep: char)
    requires |parts| >= 1
    requires forall i :: 0 <= i < |parts| ==> sep !in parts[i]
    ensures Split(Join(parts, sep), sep) == parts
    decreases |parts|
  {
    if |parts| == 1 {
      SplitNoSeparator(parts[0], sep);
    } else {
      SplitJoin(parts[1..], sep);
      SplitPrefix(parts[0], sep, Join(parts[1..], sep));
      assert parts == [parts[0]] + parts[1..];
    }
  }
}

=== FILE: middleware_controller.dfy ===
/**
  The request guards: `verifyToken` authenticates the access token carried in
  the `token` header, and `verifyTokenAndAdminAuth` chains a self-or-admin
  check onto it. Each guard either refuses the request or hands the decoded
  payload to the next handler, once.
 */
module MiddlewareController {
  import opened Wrappers
  import opened Tokens
  import opened HeaderSplit

  /** Why a 403 was sent: the token failed verification, or the caller may not act on the target. */
  datatype Denial = InvalidToken | NotAllowed

  /** A guard's outcome: a 401, a 403, or `req.user` set and `next()` called. */
  datatype Guard = Unauthenticated | Forbidden(reason: Denial) | Next(user: Payload)

  /** The status a refusal is answered with; a passed request is answered downstream. */
  function Status(g: Guard): Option<nat> {
    match g
    case Unauthenticated => Some(401)
    case Forbidden(_) => Some(403)
    case Next(_) => None
  }

  /** `header.split(" ")[1]`: the token part of `Bearer <token>`, if the header has a space. */
  function BearerToken(header: string): Option<Token> {
    SecondSegment(header, ' ')
  }

  /**
    verifyToken. A missing or empty header is a 401. Otherwise the second
    space-separated segment is verified with the access key; no segment, or a
    segment the verifier rejects, is a 403; a valid one passes its payload on.
   */
  function VerifyToken(header: Option<string>, verify: Verifier): (g: Guard)
    ensures g.Unauthenticated? <==> header.None? || header.value == ""
    ensures g.Next? <==>
      header.Some? && BearerToken(header.value).Some? && verify(BearerToken(header.value).value, AccessKey).Valid?
    ensures g.Next? ==> g.user == verify(BearerToken(header.value).value, AccessKey).payload
    ensures g.Forbidden? ==> g.reason == InvalidToken
  {
    if header.None? || header.value == "" then Unauthenticated
    else
      match BearerToken(header.value)
      case None => Forbidden(InvalidToken)
      case Some(accessToken) =>
        match verify(accessToken, AccessKey)
        case Invalid(_) => Forbidden(InvalidToken)
        case Valid(user) => Next(user)
  }

  /** The self-or-admin rule: the caller acts on its own id, or is an admin. */
  predicate SelfOrAdmin(user: Payload, targetId: string) {
    user.claims.id == targetId || user.claims.admin
  }

  /**
    verifyTokenAndAdminAuth. Authentication failures pass through unchanged;
    an authenticated caller goes on iff the self-or-admin rule holds, and is
    otherwise refused with a 403.
   */
  function VerifyTokenAndAdminAuth(header: Option<string>, targetId: string, verify: Verifier): (g: Guard)
    ensures !VerifyToken(header, verify).Next? ==> g == VerifyToken(header, verify)
    ensures g.Next? <==> VerifyToken(header, verify).Next? && SelfOrAdmin(VerifyToken(header, verify).user, targetId)
    ensures g.Next? ==> g == VerifyToken(header, verify)
    ensures VerifyToken(header, verify).Next? && !g.Next? ==> g == Forbidden(NotAllowed)
  {
    match VerifyToken(header, verify)
    case Next(user) => if SelfOrAdmin(user, targetId) then Next(user) else Forbidden(NotAllowed)
    case refused => refused
  }

  /**
    A header built the way the client builds it, `<scheme> <token>` with no
    space in either part, authenticates exactly as its token verifies; the
    scheme word is never looked at.
   */
  lemma BearerHeaderVerifiesToken(scheme: string, t: Token, verify: Verifier)
    requires ' ' !in scheme && ' ' !in t
    ensures VerifyToken(Some(scheme + " " + t), verify) ==
      match verify(t, AccessKey)
      case Valid(p) => Next(p)
      case Invalid(_) => Forbidden(InvalidToken)
  {
    var parts := [scheme, t];
    assert Join(parts, ' ') == scheme + " " + t by {
      assert Join(parts[1..], ' ') == t;
    }
    SplitJoin(parts, ' ');
  }

  /** Words after the token are ignored: `Bearer <token> <extra>` is judged by `<token>` alone. */
  lemma TrailingSegmentsIgnored(scheme: string, t: Token, extra: string, verify: Verifier)
    requires ' ' !in scheme && ' ' !in t
    ensures VerifyToken(Some(scheme + " " + t + " " + extra), verify) == VerifyToken(Some(scheme + " " + t), verify)
  {
    BearerHeaderVerifiesToken(scheme, t, verify);
    var h := scheme + " " + t + " " + extra;
    assert h == scheme + [' '] + (t + [' '] + extra);
    SplitPrefix(scheme, ' ', t + [' '] + extra);
    SplitPrefix(t, ' ', extra);
  }

  /**
    Two spaces in a row leave an empty token, which the verifier is asked
    about; an honest verifier rejects it, since no signed token is empty.
   */
  lemma DoubleSpaceYieldsEmptyToken(scheme: string, rest: string, sign: Signer, verify: Verifier, ks: Secrets, now: int)
    requires ' ' !in scheme
    ensures BearerToken(scheme + "  " + rest) == Some("")
    ensures Compact(sign) && HonestAt(sign, verify, ks, now) ==>
      VerifyToken(Some(scheme + "  " + rest), verify) == Forbidden(InvalidToken)
  {
    var h := scheme + "  " + rest;
    assert h == scheme + [' '] + ("" + [' '] + rest);
    SplitPrefix(scheme, ' ', "" + [' '] + rest);
    SplitPrefix("", ' ', rest);
  }

  /** When authentication fails, the target id plays no part in the outcome. */
  lemma RoleCheckOnlyAfterAuthentication(header: Option<string>, id1: string, id2: string, verify: Verifier)
    requires !VerifyToken(header, verify).Next?
    ensures VerifyTokenAndAdminAuth(header, id1, verify) == VerifyTokenAndAdminAuth(header, id2, verify)
    ensures Status(VerifyTokenAndAdminAuth(header, id1, verify)) == Status(VerifyToken(header, verify))
  {
  }

  /** A non-admin may act on its own id only; an admin may act on any id. */
  lemma SelfOrAdminExamples(header: Option<string>, verify: Verifier, iat: int, exp: int)
    requires header.Some? && BearerToken(header.value).Some?
    ensures var u1 := Payload(Claims("u1", false), iat, exp);
      verify(BearerToken(header.value).value, AccessKey) == Valid(u1) ==>
        && VerifyTokenAndAdminAuth(header, "u1", verify) == Next(u1)
        && VerifyTokenAndAdminAuth(header, "u2", verify) == Forbidden(NotAllowed)
    ensures var a := Payload(Claims("a", true), iat, exp);
      verify(BearerToken(header.value).value, AccessKey) == Valid(a) ==>
        forall target :: VerifyTokenAndAdminAuth(header, target, verify) == Next(a)
  {
  }
}

=== FILE: registry.dfy ===
/**
  The refresh-token registry: a process-wide list of token strings. Login and
  refresh append to it (duplicates allowed), refresh and logout filter every
  copy of one token out of it.
 */
module RefreshRegistry {
  import opened Tokens

  type Registry = seq<Token>

  /** The registry with every copy of `t` filtered out, the rest in their original order. */
  function Without(s: Registry, t: Token): (r: Registry)
    ensures t !in r
    ensures forall x :: x in r <==> x in s && x != t
    decreases |s|
  {
    if |s| == 0 then []
    else
      assert s == [s[0]] + s[1..];
      (if s[0] == t then [] else [s[0]]) + Without(s[1..], t)
  }

  /** Filtering a registry with a given first entry: that entry survives iff it is not `t`. */
  lemma WithoutCons(x: Token, s: Registry, t: Token)
    ensures Without([x] + s, t) == (if x == t then [] else [x]) + Without(s, t)
  {
    assert ([x] + s)[0] == x;
    assert ([x] + s)[1..] == s;
  }

  /** Filtering distributes over concatenation, so the survivors keep their relative order. */
  lemma {:induction false} WithoutAppend(a: Registry, b: Registry, t: Token)
    ensures Without(a + b, t) == Without(a, t) + Without(b, t)
    decreases |a|
  {
    if |a| == 0 {
      assert a + b == b;
    } else {
      var h := if a[0] == t then [] else [a[0]];
      assert a == [a[0]] + a[1..];
      assert a + b == [a[0]] + (a[1..] + b);
      WithoutCons(a[0], a[1..] + b, t);
      WithoutCons(a[0], a[1..], t);
      WithoutAppend(a[1..], b, t);
      assert Without(a + b, t) == h + (Without(a[1..], t) + Without(b, t));
    }
  }

  /** Filtering out a token that is not there changes nothing. */
  lemma {:induction false} WithoutAbsent(s: Registry, t: Token)
    requires t !in s
    ensures Without(s, t) == s
    decreases |s|
  {
    if |s| > 0 {
      WithoutAbsent(s[1..], t);
    }
  }

  /** Filtering twice is filtering once. */
  lemma WithoutIdempotent(s: Registry, t: Token)
    ensures Without(Without(s, t), t) == Without(s, t)
  {
    WithoutAbsent(Without(s, t), t);
  }

  /** Filtering keeps every other token's multiplicity and drops all of `t`'s. */
  lemma {:induction false} WithoutMultiset(s: Registry, t: Token)
    ensures multiset(Without(s, t)) == multiset(s)[t := 0]
    decreases |s|
  {
    if |s| > 0 {
      var x, rest := s[0], s[1..];
      assert s == [x] + rest;
      WithoutCons(x, rest, t);
      WithoutMultiset(rest, t);
      assert multiset(s) == multiset{x} + multiset(rest);
    }
  }

  /** Filtering out two tokens in either order gives the same registry. */
  lemma {:induction false} WithoutCommutes(s: Registry, a: Token, b: Token)
    ensures Without(Without(s, a), b) == Without(Without(s, b), a)
    decreases |s|
  {
    if |s| > 0 {
      var x, rest := s[0], s[1..];
      assert s == [x] + rest;
      WithoutCommutes(rest, a, b);
      WithoutCons(x, rest, a);
      WithoutCons(x, rest, b);
      if x == a && x == b {
        assert Without(s, a) == Without(rest, a);
      } else if x == a {
        assert Without(s, a) == Without(rest, a);
        assert Without(s, b) == [x] + Without(rest, b);
        WithoutCons(x, Without(rest, b), a);
        assert Without(Without(s, b), a) == Without(Without(rest, b), a);
      } else if x == b {
        assert Without(s, b) == Without(rest, b);
        assert Without(s, a) == [x] + Without(rest, a);
        WithoutCons(x, Without(rest, a), b);
        assert Without(Without(s, a), b) == Without(Without(rest, a), b);
      } else {
        WithoutCons(x, Without(rest, a), b);
        WithoutCons(x, Without(rest, b), a);
        assert Without(Without(s, a), b) == [x] + Without(Without(rest, a), b);
        assert Without(Without(s, b), a) == [x] + Without(Without(rest, b), a);
      }
    }
  }
}

=== FILE: session.dfy ===
/**
  The session protocol end to end: the logout route with its guard, the
  invariant the three handlers keep on the registry, and the login, refresh
  and logout sequences a browser session goes through.
 */
module Session {
  import opened Wrappers
  import opened Tokens
  import opened RefreshRegistry
  import opened AuthController
  import opened MiddlewareController

  /** The reply a guard's refusal is sent with. */
  function Refusal(g: Guard): (r: Reply)
    requires !g.Next?
    ensures r.Reply? && Some(r.status) == Status(g) && r.cookie == Unchanged
    ensures g.Unauthenticated? ==> r.body == Text("You're not authenticated")
    ensures g == Forbidden(InvalidToken) ==> r.body == Text("Token is not valid")
    ensures g.Forbidden? && g.reason == NotAllowed <==> r.body == Text("You're not allowed to delete other")
  {
    match g
    case Unauthenticated => Reply(401, Text("You're not authenticated"), Unchanged)
    case Forbidden(InvalidToken) => Reply(403, Text("Token is not valid"), Unchanged)
    case Forbidden(NotAllowed) => Reply(403, Text("You're not allowed to delete other"), Unchanged)
  }

  /** POST /logout: the access-token guard, then the logout handler. */
  function LogoutRoute(reg: Registry, header: Option<string>, cookie: Option<string>, verify: Verifier): (s: Step)
    ensures VerifyToken(header, verify).Next? ==> s == UserLogout(reg, cookie)
    ensures !VerifyToken(header, verify).Next? ==>
      s.registry == reg && s.reply.Reply? && Some(s.reply.status) == Status(VerifyToken(header, verify))
    ensures s.registry != reg ==> VerifyToken(header, verify).Next? && cookie.Some? && cookie.value in reg
  {
    var g := VerifyToken(header, verify);
    if g.Next? then UserLogout(reg, cookie) else Step(reg, Refusal(g))
  }

  /** `t` is a string the signer produced from some refresh-key request. */
  ghost predicate MintedRefresh(t: Token, sign: Signer) {
    exists j: Jwt :: j.key == RefreshKey && sign(j) == t
  }

  /** Every registry entry is a refresh token this server minted; no client string ever gets in. */
  ghost predicate RefreshOnly(reg: Registry, sign: Signer) {
    forall t :: t in reg ==> MintedRefresh(t, sign)
  }

  /** Login only ever registers a refresh token it minted. */
  lemma LoginKeepsRefreshOnly(reg: Registry, lookup: Lookup, check: PasswordCheck, now: int, sign: Signer)
    requires RefreshOnly(reg, sign)
    ensures RefreshOnly(LoginUser(reg, lookup, check, now, sign).registry, sign)
  {
  }

  /** Refresh, as written or corrected, only filters and registers a freshly minted refresh token. */
  lemma RefreshKeepsRefreshOnly(reg: Registry, cookie: Option<string>, now: int, sign: Signer, verify: Verifier)
    requires RefreshOnly(reg, sign)
    ensures RefreshOnly(RequestRefreshToken(reg, cookie, now, sign, verify).registry, sign)
    ensures RefreshOnly(RequestRefreshTokenChecked(reg, cookie, now, sign, verify).registry, sign)
  {
  }

  /** The guarded logout only ever removes tokens. */
  lemma LogoutKeepsRefreshOnly(reg: Registry, header: Option<string>, cookie: Option<string>, verify: Verifier, sign: Signer)
    requires RefreshOnly(reg, sign)
    ensures RefreshOnly(LogoutRoute(reg, header, cookie, verify).registry, sign)
  {
  }

  /**
    Against an honest verifier, a registered token can only be refused for
    having expired: its signature always checks out under the refresh key.
   */
  lemma RegisteredTokensOnlyExpire(reg: Registry, t: Token, sign: Signer, verify: Verifier, ks: Secrets, now: int)
    requires RefreshOnly(reg, sign) && HonestAt(sign, verify, ks, now)
    requires t in reg
    ensures verify(t, RefreshKey) != Invalid(InvalidSignature)
  {
  }

  /**
    Rotation invalidates the presented token: once a refresh has succeeded and
    minted a different token, presenting the old cookie again is refused with
    403 and changes nothing, and logging it out changes nothing either. So
    two renewals with one token, run one after the other, never both succeed
    unless the first re-minted that same token, which happens only within the
    token's own issue second (`SameSecondRenewalsBothSucceed`).
   */
  lemma StaleRefreshTokenRejected(reg: Registry, c: Token, now: int, now2: int, sign: Signer, verify: Verifier)
    requires c != ""
    requires RequestRefreshToken(reg, Some(c), now, sign, verify).reply.Reply?
    requires RequestRefreshToken(reg, Some(c), now, sign, verify).reply.status == 200
    requires sign(GenerateRefreshToken(verify(c, RefreshKey).payload.claims, now)) != c
    ensures var reg' := RequestRefreshToken(reg, Some(c), now, sign, verify).registry;
      && c !in reg'
      && RequestRefreshToken(reg', Some(c), now2, sign, verify) ==
           Step(reg', Reply(403, Text("Refresh token is not valid"), Unchanged))
      && UserLogout(reg', Some(c)).registry == reg'
  {
  }

  /**
    Login at `t0`, then refresh with the cookie at a later second `t1` within
    the refresh token's year, against an honest injective signer: the refresh
    succeeds, carries the user's claims in a new access token different from
    the login one, the new refresh token is registered, and the login cookie
    is refused if presented again.
   */
  lemma LoginThenRefresh(reg: Registry, user: User, t0: int, t1: int, sign: Signer, verify: Verifier, ks: Secrets)
    requires Compact(sign) && Injective(sign, ks) && HonestAt(sign, verify, ks, t1)
    requires t0 < t1 < t0 + RefreshTtl
    ensures var s1 := LoginUser(reg, Found(user), Match, t0, sign);
      var cookie := s1.registry[|reg|];
      var s2 := RequestRefreshToken(s1.registry, Some(cookie), t1, sign, verify);
      && s2.reply.Reply? && s2.reply.status == 200
      && s2.reply.body.Fields?
      && s2.reply.body.fields["accessToken"] != s1.reply.body.fields["accessToken"]
      && verify(s2.reply.body.fields["accessToken"].s, AccessKey) == Valid(Payload(ClaimsOf(user), t1, t1 + 30))
      && s2.reply.cookie.SetRefreshCookie?
      && s2.reply.cookie.token in s2.registry
      && cookie !in s2.registry
      && RequestRefreshToken(s2.registry, Some(cookie), t1, sign, verify).reply == Reply(403, Text("Refresh token is not valid"), Unchanged)
  {
  }

  /**
    Tokens are not distinct per request: refreshing in the same second as the
    login re-mints the very same strings, so the login cookie stays valid
    after its own rotation.
   */
  lemma SameSecondRefreshReissuesSameTokens(reg: Registry, user: User, t0: int, sign: Signer, verify: Verifier, ks: Secrets)
    requires Compact(sign) && HonestAt(sign, verify, ks, t0)
    ensures var s1 := LoginUser(reg, Found(user), Match, t0, sign);
      var cookie := s1.registry[|reg|];
      var s2 := RequestRefreshToken(s1.registry, Some(cookie), t0, sign, verify);
      && s2.reply.Reply? && s2.reply.status == 200
      && s2.reply.body.fields["accessToken"] == s1.reply.body.fields["accessToken"]
      && s2.reply.cookie == SetRefreshCookie(cookie)
      && cookie in s2.registry
  {
  }

  /**
    Two renewals with the login cookie in the login's own second both succeed,
    and each hands back the very cookie it was given.
   */
  lemma SameSecondRenewalsBothSucceed(reg: Registry, user: User, t0: int, sign: Signer, verify: Verifier, ks: Secrets)
    requires Compact(sign) && HonestAt(sign, verify, ks, t0)
    ensures var s1 := LoginUser(reg, Found(user), Match, t0, sign);
      var cookie := s1.registry[|reg|];
      var s2 := RequestRefreshToken(s1.registry, Some(cookie), t0, sign, verify);
      var s3 := RequestRefreshToken(s2.registry, Some(cookie), t0, sign, verify);
      && s2.reply.Reply? && s2.reply.status == 200 && s2.reply.cookie == SetRefreshCookie(cookie)
      && s3.reply.Reply? && s3.reply.status == 200 && s3.reply.cookie == SetRefreshCookie(cookie)
  {
    var s1 := LoginUser(reg, Found(user), Match, t0, sign);
    var cookie := s1.registry[|reg|];
    SameSecondRefreshReissuesSameTokens(reg, user, t0, sign, verify, ks);
    var s2 := RequestRefreshToken(s1.registry, Some(cookie), t0, sign, verify);
    assert cookie in s2.registry;
  }

  /**
    The access token a login returns, sent back as `Bearer <token>`, passes
    the guard with the user's claims for thirty seconds and is refused after.
   */
  lemma LoginAccessTokenAuthenticates(reg: Registry, user: User, t0: int, t: int, sign: Signer, verify: Verifier, ks: Secrets)
    requires Compact(sign) && HonestAt(sign, verify, ks, t)
    ensures var s1 := LoginUser(reg, Found(user), Match, t0, sign);
      var header := "Bearer " + s1.reply.body.fields["accessToken"].s;
      VerifyToken(Some(header), verify) ==
        if t < t0 + 30 then Next(Payload(ClaimsOf(user), t0, t0 + 30)) else Forbidden(InvalidToken)
  {
    var s1 := LoginUser(reg, Found(user), Match, t0, sign);
    var j := GenerateAccessToken(ClaimsOf(user), t0);
    var at := sign(j);
    assert s1.reply.body.fields["accessToken"] == JStr(at);
    assert "Bearer " + at == "Bearer" + " " + at;
    assert ' ' !in at;
    assert verify(at, AccessKey) == VerifyJwt(j, AccessKey, ks, t);
    BearerHeaderVerifiesToken("Bearer", at, verify);
  }

  /**
    The guard checks the signature only, not which kind of token it holds: the
    refresh cookie a login sets, sent back as `Bearer <token>`, is refused when
    the two secrets differ, and passes for a whole year when they are equal.
   */
  lemma RefreshTokenAsBearer(reg: Registry, user: User, t0: int, t: int, sign: Signer, verify: Verifier, ks: Secrets)
    requires Compact(sign) && HonestAt(sign, verify, ks, t)
    ensures var s1 := LoginUser(reg, Found(user), Match, t0, sign);
      var header := "Bearer " + s1.registry[|reg|];
      VerifyToken(Some(header), verify) ==
        if ks.access == ks.refresh && t < t0 + RefreshTtl then Next(Payload(ClaimsOf(user), t0, t0 + RefreshTtl))
        else Forbidden(InvalidToken)
  {
    var j := GenerateRefreshToken(ClaimsOf(user), t0);
    var rt := sign(j);
    assert LoginUser(reg, Found(user), Match, t0, sign).registry[|reg|] == rt;
    assert "Bearer " + rt == "Bearer" + " " + rt;
    assert ' ' !in rt;
    assert verify(rt, AccessKey) == VerifyJwt(j, AccessKey, ks, t);
    BearerHeaderVerifiesToken("Bearer", rt, verify);
  }
}

=== FILE: tokens.dfy ===
/**
  The token issuer: what the controller asks the JWT library to sign, and a
  reference model of what the library's verification answers.

  Signing and verification are foreign calls. The model keeps them as oracle
  parameters: a `Signer` turns a sign request into the compact token string,
  and a `Verifier` answers for a token string and a key class. The sign request
  itself, the claims it carries, the key class and the lifetime are what the
  controller decides, and those are stated exactly here.
 */
module Tokens {

  /** Which of the two signing secrets, JWT_ACCESS_KEY or JWT_REFRESH_KEY, a call names. */
  datatype KeyClass = AccessKey | RefreshKey

  /**
    The values of the two secrets in the server's environment. Nothing in the
    server requires them to differ.
   */
  datatype Secrets = Secrets(access: string, refresh: string)

  /** The secret a key class stands for. */
  function SecretOf(ks: Secrets, key: KeyClass): string {
    match key
    case AccessKey => ks.access
    case RefreshKey => ks.refresh
  }

  /** The private claims every token carries: the user's id and admin flag, nothing else. */
  datatype Claims = Claims(id: string, admin: bool)

  /**
    A sign request: the claims, the secret, the lifetime in seconds and the
    issue time in whole seconds that the library stamps as `iat`.
   */
  datatype Jwt = Jwt(claims: Claims, key: KeyClass, expiresIn: nat, issuedAt: int)

  /** A token as it travels in a cookie, a header or the registry: its compact string form. */
  type Token = string

  /** The decoded payload handed to a verification callback: the claims plus `iat` and `exp`. */
  datatype Payload = Payload(claims: Claims, issuedAt: int, expiresAt: int)

  datatype VerifyError = InvalidSignature | TokenExpired

  datatype Verdict = Valid(payload: Payload) | Invalid(error: VerifyError)

  /** jwt.sign with a fixed clock: deterministic, so equal requests give equal tokens. */
  type Signer = Jwt -> Token

  /** jwt.verify at some fixed moment, for a token string and the key it is checked against. */
  type Verifier = (Token, KeyClass) -> Verdict

  /** expiresIn "30s". */
  const AccessTtl: nat := 30

  /** expiresIn "365d", in seconds. */
  const RefreshTtl: nat := 365 * 24 * 60 * 60

  /**
    Reference behaviour of jwt.verify on a token that was signed from `j`,
    checked against `key` at time `now` with the secrets `ks`: a token signed
    with a different secret value fails its signature check; otherwise it is
    expired once `now` reaches `exp`.
   */
  function VerifyJwt(j: Jwt, key: KeyClass, ks: Secrets, now: int): Verdict {
    if SecretOf(ks, j.key) != SecretOf(ks, key) then Invalid(InvalidSignature)
    else if now >= j.issuedAt + j.expiresIn then Invalid(TokenExpired)
    else Valid(Payload(j.claims, j.issuedAt, j.issuedAt + j.expiresIn))
  }

  /** The access token request for `c` made at time `now`. */
  function GenerateAccessToken(c: Claims, now: int): (j: Jwt)
    ensures forall ks, t :: (VerifyJwt(j, AccessKey, ks, t) ==
                              if t < now + 30 then Valid(Payload(c, now, now + 30)) else Invalid(TokenExpired))
    ensures forall ks: Secrets, t :: ks.access != ks.refresh ==> VerifyJwt(j, RefreshKey, ks, t) == Invalid(InvalidSignature)
    ensures forall ks: Secrets, t :: ks.access == ks.refresh ==> VerifyJwt(j, RefreshKey, ks, t) == VerifyJwt(j, AccessKey, ks, t)
  {
    Jwt(c, AccessKey, AccessTtl, now)
  }

  /** The refresh token request for `c` made at time `now`. */
  function GenerateRefreshToken(c: Claims, now: int): (j: Jwt)
    ensures forall ks, t :: (VerifyJwt(j, RefreshKey, ks, t) ==
                              if t < now + 31536000 then Valid(Payload(c, now, now + 31536000)) else Invalid(TokenExpired))
    ensures forall ks: Secrets, t :: ks.access != ks.refresh ==> VerifyJwt(j, AccessKey, ks, t) == Invalid(InvalidSignature)
    ensures forall ks: Secrets, t :: ks.access == ks.refresh ==> VerifyJwt(j, AccessKey, ks, t) == VerifyJwt(j, RefreshKey, ks, t)
  {
    Jwt(c, RefreshKey, RefreshTtl, now)
  }

  /**
    What a signature depends on: the claims, the secret's value, the lifetime
    and the issue second. Two requests naming equal secrets sign alike.
   */
  function SignedContent(j: Jwt, ks: Secrets): (Claims, string, nat, int) {
    (j.claims, SecretOf(ks, j.key), j.expiresIn, j.issuedAt)
  }

  /** The signer never maps two requests with different signed content to one string. */
  ghost predicate Injective(sign: Signer, ks: Secrets) {
    forall j1, j2 :: sign(j1) == sign(j2) ==> SignedContent(j1, ks) == SignedContent(j2, ks)
  }

  /**
    The verifier, at time `now` and with the secrets `ks`, answers exactly as
    the reference does for every signed token, and accepts no string the
    signer did not produce: an empty, malformed or forged token is rejected.
   */
  ghost predicate HonestAt(sign: Signer, verify: Verifier, ks: Secrets, now: int) {
    && (forall j, key :: verify(sign(j), key) == VerifyJwt(j, key, ks, now))
    && (forall t, key :: verify(t, key).Valid? ==> exists j: Jwt :: sign(j) == t)
  }

  /** Compact JWTs are non-empty base64url segments joined by dots: never empty, never holding a space. */
  ghost predicate Compact(sign: Signer) {
    forall j :: sign(j) != "" && ' ' !in sign(j)
  }
}

=== FILE: wrappers.dfy ===
/** Helper types shared by the other modules. */
module Wrappers {

  /** A value that may be absent: a missing header, cookie or array element. */
  datatype Option<+T> = None | Some(value: T)
}
